=== FILE: README.md ===
# FBX animation controls: a verified model of the playback controller

`FBXAnimationControls` is a small playback controller for a Three.js mesh that
carries animation clips. It holds one attached mesh and one engine action (the
player for one clip), and a playing flag. It offers `play`, `pause`, `stop` and
seeking by percentage. A range slider and a play button drive it through four DOM
listeners. The cursor is shown as `MM:SS:CC` (or `SS:CC`). Later revisions declare
more API in `src/index.d.ts`:
- a registry of the mesh's clips (`getAnimationList`, `getAnimationByIndex`,
  `getAnimationByName`);
- track selection (`selectAnimation`, `selectAnimationByName`,
  `currentAnimationIndex`);
- an event bus (`on`, `dispatch`), which announces every selection.

The project has these modules:

- `Decimal` (decimal.dfy): decimal digits of naturals (`Show`) and their inverse (`Parse`).
- `TimeDisplay` (time_display.dfy): the time formatter over whole milliseconds.
  - `TimePrepare` is the early `_timePrepare`, which rounds the centiseconds.
  - `DisplayString` is the tested `getAnimationTimeDisplayString`, which floors them
    and clamps negative input to zero.
  - The module also holds the percentage-to-seconds conversions of the slider.
- `Errors` (errors.dfy): the errors the controller raises, with their messages.
- `Tracks` (tracks.dfy): `getAnimationTrackInfo`, the clip registry and its lookups.
- `Events` (events.dfy): listener registration and in-order delivery. Delivery stops
  at the first listener that throws.
- `ControlsModel` (controls_model.dfy): the controller as a state machine on values.
  - There is one step function per operation and DOM handler.
  - The invariant `Inv` ties the registry to the attached mesh and the bound action to
    the selected track.
  - Lemmas state what the code and its tests promise.
- `Controls` (controls.dfy): class `AnimationControls`, whose methods update its fields
  in place. Each method is proved to move `Model()` exactly as the matching step
  function does, and to keep `Valid()`.

Time is modelled in whole milliseconds (`int`) for display. Seconds and percentages
are modelled as `real`, with exact arithmetic. Meshes are compared by an `id`, which
stands for JavaScript object identity. A listener is an identity plus whether it
throws. Every listener call is appended to a log in the state.

The early code and the later declared API disagree in two places. The model follows
the early code in each:
- `detach` (src/FBXAnimationControls.js:113-120) clears the mesh and the action but
  leaves the playing flag as it was (`ControlsModel.Detach`). The declared `detach`
  stops any playing animation (src/index.d.ts:280), and its test expects a STOP
  notification (src/__tests__/FBXAnimationControls.core.test.js:305-306). In the model
  the transport is still inert after `detach` (`ControlsModel.DetachedIsInert`).
- `attach` of a mesh other than the attached one replaces it
  (src/FBXAnimationControls.js:100-111). Only re-attaching the same mesh is refused
  with 'already attached'. The declared `attach` throws whenever a mesh is already
  attached (src/index.d.ts:264).

Minutes are shown modulo 60, because `getUTCMinutes` wraps at the hour
(`TimeDisplay.HourWrap`).

## Model

| member | source | states |
|---|---|---|
| TimeDisplay.Minutes | src/FBXAnimationControls.js:125 | the minutes field is below 60 (getUTCMinutes wraps at the hour) |
| TimeDisplay.Seconds | src/FBXAnimationControls.js:127 | the seconds field is below 60 |
| TimeDisplay.CentisRounded | src/FBXAnimationControls.js:129 | rounded centiseconds are at most 100, and equal 100 exactly when the sub-second remainder is 995 ms or more |
| TimeDisplay.CentisFloored | src/__tests__/FBXAnimationControls.edge-cases.test.js:74-88 | floored centiseconds are below 100 and lie within the 10 ms window of the remainder |
| TimeDisplay.Pad | src/FBXAnimationControls.js:126-130 | a padded field is all digits and parses back to the value; it is two characters exactly when the value is below 100 |
| TimeDisplay.TimePrepare | src/FBXAnimationControls.js:122-133 | the early display is 8 characters exactly when the remainder is below 995 ms |
| TimeDisplay.TimePrepareFieldsDecode | src/FBXAnimationControls.js:122-133 | the early display's three fields read back as the minutes, the seconds and the rounded centiseconds, separated by colons |
| TimeDisplay.TimePrepareRoundsUp | src/FBXAnimationControls.js:129-130 | below 995 ms into a second, a last millisecond digit of 5 or more makes the early display show one centisecond more than the floored value |
| TimeDisplay.Clamp | src/__tests__/FBXAnimationControls.edge-cases.test.js:33-51 | a negative time is shown as zero; other times are unchanged |
| TimeDisplay.DisplayString | src/index.d.ts:213-229 | MM_SS_MS gives 8 characters with colons at positions 2 and 5; SS_MS gives 5 characters with a colon at position 2 |
| TimeDisplay.DisplayFieldsDecode | src/index.d.ts:213-229 | the three fields of the display parse back to the minutes, seconds and floored centiseconds of the time |
| TimeDisplay.ShortFormIsSuffix | src/index.d.ts:213-229 | the SS_MS display is the last five characters of the MM_SS_MS display |
| TimeDisplay.DisplayIsExactWithinHour | src/index.d.ts:213-229 | below one hour, the display read back as centiseconds is the time floored to centiseconds |
| TimeDisplay.DisplayMonotoneWithinHour | src/index.d.ts:213-229 | below one hour, a later time never shows a smaller value |
| TimeDisplay.NoZeroDisplayAfterOneSecond | src/__tests__/FBXAnimationControls.edge-cases.test.js:107-130 | from one second up to one hour the display is never "00:00:00" |
| TimeDisplay.HourWrap | src/FBXAnimationControls.js:123-125 | one hour is shown as "00:00:00" |
| TimeDisplay.RoundedVersusFloored | src/FBXAnimationControls.js:129 | rounded centiseconds exceed floored ones by one exactly when the last millisecond digit is 5 or more |
| TimeDisplay.TimePrepareAgreesIff | src/FBXAnimationControls.js:122-133 | the early display equals the tested one exactly when the last millisecond digit is below 5 |
| TimeDisplay.TimePrepareCentisOverflow | src/FBXAnimationControls.js:129-132 | from 995 ms into a second, the early display is 9 characters and ends in "100" |
| TimeDisplay.DisplayCentisAtMost99 | src/__tests__/FBXAnimationControls.edge-cases.test.js:74-88 | the tested display's centisecond field is never above 99 |
| TimeDisplay.PadDigits | src/FBXAnimationControls.js:126-130 | a field below 100 is shown as its two decimal digits |
| TimeDisplay.TestedBoundaryDisplays | src/__tests__/FBXAnimationControls.edge-cases.test.js:107-130 | the displays at 0, 0.995, 1, 59.99 and -1 seconds |
| TimeDisplay.TestedFormatDisplays | src/__tests__/FBXAnimationControls.utils.test.js:33-48 | 61.5 s gives "01:01:50" and "01:50"; 125.75 s gives "02:05:75" and "05:75" |
| TimeDisplay.TimePrepareAt995 | src/FBXAnimationControls.js:122-133 | at 0.995 s the early display is "00:00:100", where the tested one is "00:00:99" |
| TimeDisplay.ClampedPercentToTime | src/__tests__/FBXAnimationControls.edge-cases.test.js:353-371 | the clamped cursor equals the unclamped one when that is not negative, and is exactly 0 when it is |
| TimeDisplay.PercentInClip | src/FBXAnimationControls.js:93-98 | a percentage in 0..100 puts the cursor between 0 and the clip's duration |
| TimeDisplay.PercentRoundTrip | src/FBXAnimationControls.js:135-141 | reading the slider back after seeking gives the same percentage |
| TimeDisplay.PercentToTime | src/FBXAnimationControls.js:93-98 | 0 percent is time 0, 100 percent is the whole duration, and a negative percentage of a positive duration is a negative time |
| TimeDisplay.TimeToPercent | src/FBXAnimationControls.js:135-141 | time 0 is 0 percent and the whole duration is 100 percent |
| Errors.Message | src/__tests__/FBXAnimationControls.selector.test.js:262-288 | a not-found message is 22 characters longer than the name and holds it after the opening quote; an index message is longer than its 47-character prefix and ends in decimal digits when there is a clip |
| Errors.MessageShowsKind | src/__tests__/FBXAnimationControls.selector.test.js:262-288 | the kind of error can be read back from the first and eleventh characters of its message |
| Errors.MessageInjective | src/__tests__/FBXAnimationControls.selector.test.js:262-288 | two errors with the same message are the same error |
| Errors.InvalidIndexMessage | src/__tests__/FBXAnimationControls.selector.test.js:262-270 | the index error's message ends in the decimal digits of the last valid index |
| Errors.TestedMessages | src/__tests__/FBXAnimationControls.selector.test.js:262-276 | the messages for an out-of-range index with three clips and for an unknown name |
| Tracks.DefaultNamesDistinct | src/index.d.ts:77-88 | two different positions get different generated names |
| Tracks.Describe | src/index.d.ts:77-88 | the entry has the given index, the clip's name or "Animation n+1", its duration, its track count or 0, and its uuid or "animation-n" |
| Tracks.GetAnimationTrackInfo | src/index.d.ts:231-245 | fails with 'Animation clip is required' exactly when there is no clip; otherwise gives the clip's entry |
| Tracks.TestedTrackInfo | src/__tests__/FBXAnimationControls.selector.test.js:119-145 | a named clip, an unnamed third clip ("Animation 3") and a clip without tracks (0) |
| Tracks.BuildTrackList | src/__tests__/FBXAnimationControls.selector.test.js:158-170 | one entry per clip, in clip order, each described at its own position |
| Tracks.FindIndexByName | src/index.d.ts:480-494 | the position found holds the name and no earlier entry does; none exactly when no entry has the name |
| Tracks.GetAnimationByIndex | src/index.d.ts:464-478 | an entry exactly when the index is in range, and then the entry at that index |
| Tracks.GetAnimationByName | src/index.d.ts:480-494 | an entry exactly when some entry has the name, and then the entry at some position with that name and no earlier entry having it |
| Tracks.TestedRegistry | src/__tests__/FBXAnimationControls.selector.test.js:491-504 | duplicate names are kept and told apart by uuid |
| Events.ListenersOf | src/index.d.ts:405-417 | a name never registered has no listeners |
| Events.Register | src/index.d.ts:386-403 | the callback is appended to that event's listeners; every other event's listeners are unchanged |
| Events.Deliver | src/index.d.ts:405-417 | listeners are called in order with the data; delivery stops right after the first one that throws, and reports it; all are called when none throws |
| Events.DispatchUnknownIsNoop | src/__tests__/FBXAnimationControls.core.test.js:395-421 | dispatching a name nobody listens to calls nothing |
| Events.RegisteredListenerIsCalled | src/__tests__/FBXAnimationControls.core.test.js:395-421 | a newly registered listener is called last, with the data, when the earlier ones do not throw |
| Events.ThrowStopsDelivery | src/__tests__/FBXAnimationControls.edge-cases.test.js:407-429 | a throwing listener ends delivery, so no later listener is called |
| ControlsModel.Initial | src/FBXAnimationControls.js:2-20 | at construction no mesh and no action are bound, nothing is selected, no listener is registered, nothing is logged, the drag flag is off, and the controller is not playing but stopped |
| ControlsModel.Bind | src/FBXAnimationControls.js:104 | a new action belongs to its track, is not running or paused, and sits at time 0 |
| ControlsModel.Play | src/FBXAnimationControls.js:70-81 | without a mesh and action nothing changes; otherwise the flag is set, the action runs, and the cursor and selection are kept; the paused and stopped flags clear only when it was not playing |
| ControlsModel.Pause | src/FBXAnimationControls.js:83-91 | changes something only while bound and playing; then the flag clears and the action is paused, with its cursor kept |
| ControlsModel.Stop | src/__tests__/FBXAnimationControls.edge-cases.test.js:318-351 | changes something only while bound and playing; then the flag clears, stopped is set, and the action stops at time 0 |
| ControlsModel.SliderInput | src/FBXAnimationControls.js:56-58 | while bound, the action is the old one with only its cursor moved to the slider's percentage of the clip's duration; the selection, listeners, log and the playing, stopped and drag flags stay; unbound, nothing changes |
| ControlsModel.SetTimePercentage | src/FBXAnimationControls.js:93-98 | while bound, the cursor becomes the percentage of the clip's duration; nothing else changes |
| ControlsModel.SetPercentage | src/__tests__/FBXAnimationControls.edge-cases.test.js:353-371 | while bound, the cursor agrees with SetTimePercentage whenever that gives a non-negative time, and is exactly 0 otherwise; nothing else changes |
| ControlsModel.PlayButtonClick | src/FBXAnimationControls.js:64-67 | while bound, a click flips the playing flag: when playing it is exactly a pause (the action paused, running and stopped as before), otherwise exactly a play (the action running and unpaused, not stopped); the cursor, track, selection, listeners, log and drag flag stay |
| ControlsModel.SliderMouseDown | src/FBXAnimationControls.js:51-54 | remembers whether it was playing; when bound and playing, the action becomes paused with nothing else of it changed; otherwise only the drag flag changes; the selection, listeners, log and stopped flag stay |
| ControlsModel.SliderMouseUp | src/FBXAnimationControls.js:60-62 | resumes only if it was playing at mousedown, and then exactly as play: the action runs at the same cursor and track, unpaused and not stopped if it was paused; otherwise nothing changes; the selection, listeners, log and drag flag stay |
| ControlsModel.Detach | src/FBXAnimationControls.js:113-120 | the mesh, the action and the registry are gone; the playing, stopped and drag flags, the listeners and the log stay |
| ControlsModel.InitialIndex | src/index.d.ts:21-28 | a requested index that is valid is selected, and one out of range selects nothing; with no request, track 0 if auto-selection is on and there is a clip, else nothing |
| ControlsModel.Announce | src/index.d.ts:62-65 | only the log changes, and only by growing at its end; a failure is always a listener's error |
| ControlsModel.AnnounceCalls | src/index.d.ts:62-65 | the exact log and result of a selection: the ANIMATION_SELECTED listeners' delivery, and its thrower's error if one throws; otherwise, for a switch between two tracks, also the ANIMATION_TRACK_CHANGED delivery, failing exactly when one of those throws |
| ControlsModel.AnnounceReadsBus | src/index.d.ts:62-65 | a selection's notifications depend only on the listeners, the registry and the log |
| ControlsModel.AnnounceLogsSelection | src/index.d.ts:93-100 | every call a selection adds to the log carries the selected entry with the previous and new index; ANIMATION_TRACK_CHANGED is only sent for a switch between two tracks |
| ControlsModel.Attach | src/FBXAnimationControls.js:100-111 | the same mesh again gives 'already attached' and no change; any other mesh leaves the state AttachBinding describes, apart from the log; with no initial track it succeeds and logs nothing; with one, its log and result are those of announcing that track with previous index -1 (AnnounceCalls); its only possible failure is a listener throwing |
| ControlsModel.AttachBinding | src/FBXAnimationControls.js:100-111 | binds the mesh, its registry and the initial track; an action exists exactly when a track is selected, and it starts at time 0, unpaused, running exactly when play was asked; playing and stopped change only when play was asked and a track exists; the drag flag, listeners and log stay |
| ControlsModel.Select | src/index.d.ts:419-432 | fails with no change when nothing is attached or the index is out of range; otherwise selects the track with a fresh unpaused action at time 0, keeps the playing and drag flags, runs the action if playing, and is stopped if it was not playing; its log, and its error if it fails, are those of announcing the selection from the previous index (AnnounceCalls) |
| ControlsModel.SelectByName | src/index.d.ts:434-447 | no mesh and an unknown name fail with no change; otherwise it selects the first entry with the name |
| ControlsModel.On | src/index.d.ts:386-403 | appends the listener to that event, leaves every other event's listeners as they were, and changes nothing else |
| ControlsModel.Dispatch | src/index.d.ts:405-417 | logs exactly the calls `Deliver` makes and reports the thrower |
| ControlsModel.CurrentTrack | src/index.d.ts:199 | an entry exactly when a track is selected, and then the selected entry |
| ControlsModel.UnboundIsNoop | src/__tests__/FBXAnimationControls.core.test.js:106-127 | with no mesh or action, play, pause, stop, seeking and a click change nothing |
| ControlsModel.PlayIdempotent | src/__tests__/FBXAnimationControls.edge-cases.test.js:256-286 | playing twice is the same as playing once |
| ControlsModel.PlayWhileRunningIsNoop | src/__tests__/FBXAnimationControls.edge-cases.test.js:256-286 | play on a playing, running action changes nothing |
| ControlsModel.PauseAndStopIdempotent | src/__tests__/FBXAnimationControls.edge-cases.test.js:288-351 | pausing twice, or stopping twice, is the same as doing it once |
| ControlsModel.ClickTwiceRestoresFlag | src/FBXAnimationControls.js:64-67 | two clicks restore the playing flag |
| ControlsModel.SliderDragRestoresPlayback | src/__tests__/FBXAnimationControls.core.test.js:469-513 | a mousedown, an input and a mouseup move the cursor and leave playback as it was |
| ControlsModel.DetachedIsInert | src/FBXAnimationControls.js:113-120 | after detach, play, pause, stop and seeking change nothing |
| ControlsModel.AttachBindsFirstClip | src/__tests__/FBXAnimationControls.selector.test.js:171-181 | by default attach selects clip 0 with a fresh action, which runs only when play was asked |
| ControlsModel.AttachBuildsRegistry | src/__tests__/FBXAnimationControls.selector.test.js:158-230 | the registry has one entry per clip; an empty mesh, or no auto-selection without a requested index, selects nothing |
| ControlsModel.AttachAnnouncesFirstSelection | src/__tests__/FBXAnimationControls.selector.test.js:437-483 | the first selection calls exactly the ANIMATION_SELECTED listeners, with previous index -1 |
| ControlsModel.SwitchAnnouncesTrackChange | src/__tests__/FBXAnimationControls.selector.test.js:454-471 | a switch calls the ANIMATION_SELECTED listeners, then the ANIMATION_TRACK_CHANGED listeners, with the previous and new index |
| ControlsModel.FailedSelectionChangesNothing | src/__tests__/FBXAnimationControls.selector.test.js:262-288 | a selection rejected for no mesh, a bad index or an unknown name leaves the state unchanged |
| ControlsModel.TransportPreservesInv | src/FBXAnimationControls.js:49-120 | transport, handlers, detach, on and dispatch keep the registry and the bound action consistent |
| ControlsModel.AttachPreservesInv | src/FBXAnimationControls.js:100-111 | attach keeps the invariant |
| ControlsModel.SelectPreservesInv | src/index.d.ts:419-432 | selectAnimation keeps the invariant |
| ControlsModel.SelectByNamePreservesInv | src/index.d.ts:434-447 | selectAnimationByName keeps the invariant |
| ControlsModel.LastSelectionWins | src/__tests__/FBXAnimationControls.selector.test.js:538-552 | after a run of valid selections, the last one is current, the playing flag is kept, and the action is at time 0 |
| ControlsModel.SelectByNameTakesFirst | src/__tests__/FBXAnimationControls.selector.test.js:491-504 | selecting by a duplicated name picks the first entry with it |
| Controls.AnimationControls.constructor | src/FBXAnimationControls.js:2-20 | the fields start at the initial model state |
| Controls.AnimationControls.Play | src/FBXAnimationControls.js:70-81 | updates the fields as ControlsModel.Play |
| Controls.AnimationControls.Pause | src/FBXAnimationControls.js:83-91 | updates the fields as ControlsModel.Pause |
| Controls.AnimationControls.Stop | src/index.d.ts:316-326 | updates the fields as ControlsModel.Stop, by calling SetPercentage(0) |
| Controls.AnimationControls.SetPercentage | src/index.d.ts:341-353 | updates the fields as ControlsModel.SetPercentage |
| Controls.AnimationControls.SetTimePercentage | src/FBXAnimationControls.js:93-98 | updates the fields as ControlsModel.SetTimePercentage |
| Controls.AnimationControls.SliderMouseDown | src/FBXAnimationControls.js:51-54 | updates the fields as ControlsModel.SliderMouseDown |
| Controls.AnimationControls.SliderInput | src/FBXAnimationControls.js:56-58 | updates the fields as ControlsModel.SliderInput |
| Controls.AnimationControls.SliderMouseUp | src/FBXAnimationControls.js:60-62 | updates the fields as ControlsModel.SliderMouseUp |
| Controls.AnimationControls.PlayButtonClick | src/FBXAnimationControls.js:64-67 | updates the fields as ControlsModel.PlayButtonClick |
| Controls.AnimationControls.Detach | src/FBXAnimationControls.js:113-120 | updates the fields as ControlsModel.Detach |
| Controls.AnimationControls.On | src/index.d.ts:386-403 | updates the fields as ControlsModel.On |
| Controls.AnimationControls.Dispatch | src/index.d.ts:405-417 | the loop calls the listeners in order and stops at the first that throws, as Events.Deliver describes |
| Controls.AnimationControls.Announce | src/index.d.ts:62-65 | sends the selection events as ControlsModel.Announce |
| Controls.AnimationControls.Attach | src/index.d.ts:259-275 | updates the fields and gives the result as ControlsModel.Attach |
| Controls.AnimationControls.SelectAnimation | src/index.d.ts:419-432 | updates the fields and gives the result as ControlsModel.Select |
| Controls.AnimationControls.SelectAnimationByName | src/index.d.ts:434-447 | updates the fields and gives the result as ControlsModel.SelectByName |
| Controls.AnimationControls.GetAnimationList | src/index.d.ts:449-462 | one entry per clip of the attached mesh, each described at its position; empty when nothing is attached |
| Controls.AnimationControls.CurrentAnimationIndex | src/index.d.ts:189-193 | -1 or a valid position, and not -1 exactly when an action is bound |
| Controls.AnimationControls.CurrentAnimationTrack | src/index.d.ts:195-199 | the selected entry, whose duration is the bound action's; null exactly when the index is -1 |
| Controls.AnimationControls.HasMultipleAnimations | src/index.d.ts:201-205 | true exactly when the attached mesh has more than one clip |
| Controls.AnimationControls.GetAnimationByIndex | src/index.d.ts:464-478 | the entry at an in-range index, whose own index is that index; null otherwise |
| Controls.AnimationControls.GetAnimationByName | src/index.d.ts:480-494 | the first entry with the name, null when there is none |

## Left out

- Everything the controller writes to the DOM: building elements, button icons, the
  time label, slider values, visibility, the animation selector dropdown and its info
  display, the configuration flags `initHTMLControls` and `enableAnimationSelector`,
  and `isHTMLControlsAvailable`. The model keeps the state that these writes reflect.
- The engine itself: `AnimationMixer` creation, `update()` advancing the mixer by the
  clock's delta, and the clock. These are calls into Three.js. Time only moves through
  the seeking operations.
- Floating point: the seconds-to-milliseconds conversion `(time * 1000).toFixed(0)`,
  `parseFloat` of the slider's string value, and `toFixed(2)` labels. Display time is
  whole milliseconds; seconds and percentages are exact reals.
- TimeDisplay.TimeToPercent: requires a non-zero duration. For a zero-length clip
  `update()` sets the slider to NaN, which exact reals cannot represent; the same
  holds for TimeDisplay.PercentRoundTrip.
- TimeDisplay.DisplayString: does not model the error for an undefined or NaN time,
  nor Infinity. An integer input cannot be either.
- TimeDisplay.TimePrepare: takes a non-negative count. The `Date` handling of a
  negative count is not modelled.
- `setTime` and `getCurrentAnimationTimeDisplayString`, because the model has no
  string-to-number parsing.
- The `atTime` attach option. It goes through `setTime`.
- The PLAY, PAUSE, STOP, MESH_ATTACHED, MESH_DETACHED, CHANGE_PERCENTAGE and
  CHANGE_TIME notifications. Their event names are declared (`Events`), and any of them
  can be sent with `dispatch`. Operations only announce selections, because the
  bodies that send the other notifications are not part of this model.
- ControlsModel.InitialIndex: an `animationIndex` out of range selects nothing. This
  is a modelling choice, because the body of the later `attach` is not part of this
  model.
- ControlsModel.Select: after a switch made while not playing, the controller is
  stopped. This is a modelling choice, because the body of `selectAnimation` is not
  part of this model.
- Tracks.Describe: a clip without a uuid gets "animation-n", where n is its position.
  This is a modelling choice, because the body of `getAnimationTrackInfo` is not part
  of this model.
- ControlsModel.Attach: a mesh is identified by a number. Two meshes with equal ids
  are treated as the same object.
- A listener that is not a function (undefined or null), and listener side effects
  other than throwing.
- Listener errors are returned as `Err(ListenerThrew(id))` instead of propagating as
  exceptions. As a modelling choice, a selection or attach whose notification fails
  keeps its state change. The bodies of `selectAnimation` and of the later `attach`
  are not part of this model, so their order of state change and notification is not
  fixed by any source line.

## Findings

| source | as written | input that shows it | evidently intended | confidence | as-written member | corrected member |
|---|---|---|---|---|---|---|
| src/FBXAnimationControls.js:129-130 | the sub-second remainder is divided by 10 and rounded half up, so it becomes 100 from 995 ms on, and the display gets a three-digit field | 0.995 s (995 ms) shows "00:00:100" | the field floors to 99 and stays two digits, so 0.995 s shows "00:00:99" (the later formatter and its tests do this) | not executed | TimeDisplay.TimePrepareAt995 | TimeDisplay.DisplayCentisAtMost99 |

=== FILE: common.dfy ===
/** The Option and Result datatypes used across the controller model. */
module Common {

  /** A value that may be absent: JavaScript's `null`/`undefined` in the source. */
  datatype Option<+T> = None | Some(value: T)

  /** The outcome of an operation that the source may abort by throwing. */
  datatype Result<+T, +E> = Ok(value: T) | Err(error: E)
}

=== FILE: controls.dfy ===
/**
 * `FBXAnimationControls` as a class whose methods update its fields in place.
 * Each method is proved to take the controller from `old(Model())` to the state
 * the matching step function of ControlsModel computes, and to keep `Valid()`.
 */
module Controls {
  import opened Common
  import opened Errors
  import opened Tracks
  import opened Events
  import TimeDisplay
  import M = ControlsModel

  class AnimationControls {
    var playing: bool
    var stopped: bool
    var dragWasPlaying: bool
    var mesh: Option<M.Mesh>
    var action: Option<M.Action>
    var tracks: seq<TrackInfo>
    var current: int
    var listeners: Listeners
    var log: seq<Invocation>
    /** `autoSelectFirstAnimation` of the configuration. */
    const autoSelect: bool

    /** The controller's fields as a value of the pure model. */
    function Model(): M.State
      reads this
    {
      M.State(playing, stopped, dragWasPlaying, mesh, action, tracks, current, listeners, log)
    }

    predicate Valid()
      reads this
    {
      M.Inv(Model())
    }

    constructor (autoSelectFirstAnimation: bool)
      ensures Valid() && Model() == M.Initial()
      ensures autoSelect == autoSelectFirstAnimation
    {
      playing := false;
      stopped := true;
      dragWasPlaying := false;
      mesh := None;
      action := None;
      tracks := [];
      current := -1;
      listeners := map[];
      log := [];
      autoSelect := autoSelectFirstAnimation;
    }

    method Play()
      requires Valid()
      modifies this
      ensures Valid() && Model() == M.Play(old(Model()))
    {
      if mesh.Some? && action.Some? {
        if !playing {
          playing := true;
          stopped := false;
          action := Some(action.value.(paused := false));
        }
        if !action.value.running {
          action := Some(action.value.(running := true));
        }
      }
    }

    method Pause()
      requires Valid()
      modifies this
      ensures Valid() && Model() == M.Pause(old(Model()))
    {
      if mesh.Some? && action.Some? && playing {
        playing := false;
        action := Some(action.value.(paused := true));
      }
    }

    method Stop()
      requires Valid()
      modifies this
      ensures Valid() && Model() == M.Stop(old(Model()))
    {
      if mesh.Some? && action.Some? && playing {
        action := Some(action.value.(running := false));
        playing := false;
        stopped := true;
        SetPercentage(0.0);
      }
    }

    method SetPercentage(percentage: real)
      requires Valid()
      modifies this
      ensures Valid() && Model() == M.SetPercentage(old(Model()), percentage)
    {
      if mesh.Some? && action.Some? {
        var a := action.value;
        action := Some(a.(time := TimeDisplay.ClampedPercentToTime(percentage, a.duration)));
      }
    }

    method SetTimePercentage(percentage: real)
      requires Valid()
      modifies this
      ensures Valid() && Model() == M.SetTimePercentage(old(Model()), percentage)
    {
      if mesh.Some? && action.Some? {
        var a := action.value;
        action := Some(a.(time := TimeDisplay.PercentToTime(percentage, a.duration)));
      }
    }

    /** The slider's `mousedown` listener. */
    method SliderMouseDown()
      requires Valid()
      modifies this
      ensures Valid() && Model() == M.SliderMouseDown(old(Model()))
    {
      dragWasPlaying := playing;
      Pause();
    }

    /** The slider's `input` listener. */
    method SliderInput(percentage: real)
      requires Valid()
      modifies this
      ensures Valid() && Model() == M.SliderInput(old(Model()), percentage)
    {
      SetTimePercentage(percentage);
    }

    /** The slider's `mouseup` listener. */
    method SliderMouseUp()
      requires Valid()
      modifies this
      ensures Valid() && Model() == M.SliderMouseUp(old(Model()))
    {
      if dragWasPlaying {
        Play();
      }
    }

    /** The play button's `click` listener. */
    method PlayButtonClick()
      requires Valid()
      modifies this
      ensures Valid() && Model() == M.PlayButtonClick(old(Model()))
    {
      if playing {
        Pause();
      } else {
        Play();
      }
    }

    method Detach()
      requires Valid()
      modifies this
      ensures Valid() && Model() == M.Detach(old(Model()))
    {
      mesh := None;
      action := None;
      tracks := [];
      current := -1;
    }

    method On(event: string, cb: Callback)
      requires Valid()
      modifies this
      ensures Valid() && Model() == M.On(old(Model()), event, cb)
    {
      listeners := Register(listeners, event, cb);
    }

    /**
     * Calls the listeners of `event` in registration order, logging each call,
     * and stops at the first one that throws.
     */
    method Dispatch(event: string, data: EventData) returns (thrown: Option<nat>)
      requires Valid()
      modifies this
      ensures Valid()
      ensures (Model(), thrown) == M.Dispatch(old(Model()), event, data)
    {
      var cbs := ListenersOf(listeners, event);
      ghost var d := Deliver(cbs, event, data);
      var calls: seq<Invocation> := [];
      thrown := None;
      while |calls| < |cbs| && thrown.None?
        invariant |calls| <= |cbs|
        invariant forall j :: 0 <= j < |calls| ==> calls[j] == Invocation(cbs[j].id, event, data)
        invariant thrown.None? ==> forall j :: 0 <= j < |calls| ==> !cbs[j].throws
        invariant thrown.Some? ==>
          0 < |calls| && cbs[|calls| - 1].throws && thrown.value == cbs[|calls| - 1].id
          && forall j :: 0 <= j < |calls| - 1 ==> !cbs[j].throws
        decreases |cbs| - |calls|
      {
        var cb := cbs[|calls|];
        calls := calls + [Invocation(cb.id, event, data)];
        if cb.throws {
          thrown := Some(cb.id);
        }
      }
      assert |calls| == |d.calls|;
      assert calls == d.calls;
      log := log + calls;
    }

    /** The selection notifications, as `M.Announce` describes them. */
    method Announce(previous: int, index: nat) returns (r: Result<(), Error>)
      requires Valid() && index < |tracks|
      modifies this
      ensures Valid()
      ensures (Model(), r) == M.Announce(old(Model()), previous, index)
    {
      var info := tracks[index];
      var thrown := Dispatch(AnimationSelected, Selection(info, previous, index));
      if thrown.Some? {
        return Err(ListenerThrew(thrown.value));
      }
      if previous != -1 && previous != index {
        thrown := Dispatch(AnimationTrackChanged, Selection(info, previous, index));
        if thrown.Some? {
          return Err(ListenerThrew(thrown.value));
        }
      }
      return Ok(());
    }

    method Attach(m: M.Mesh, options: M.AttachOptions) returns (r: Result<(), Error>)
      requires Valid()
      modifies this
      ensures Valid()
      ensures (Model(), r) == M.Attach(old(Model()), m, options, autoSelect)
    {
      if mesh.Some? && mesh.value.id == m.id {
        return Err(AlreadyAttached);
      }
      mesh := Some(m);
      tracks := BuildTrackList(m.animations);
      current := M.InitialIndex(|tracks|, options.animationIndex, autoSelect);
      action := if current >= 0 then Some(M.Bind(tracks[current])) else None;
      if options.play {
        Play();
      }
      if current >= 0 {
        r := Announce(-1, current);
      } else {
        r := Ok(());
      }
    }

    method SelectAnimation(index: int) returns (r: Result<TrackInfo, Error>)
      requires Valid()
      modifies this
      ensures Valid()
      ensures (Model(), r) == M.Select(old(Model()), index)
    {
      if mesh.None? {
        return Err(NoMeshAttached);
      }
      if !(0 <= index < |tracks|) {
        return Err(InvalidIndex(|tracks|));
      }
      var previous := current;
      current := index;
      stopped := !playing;
      action := Some(M.Bind(tracks[index]));
      if playing {
        Play();
      }
      var announced := Announce(previous, index);
      r := if announced.Ok? then Ok(tracks[index]) else Err(announced.error);
    }

    method SelectAnimationByName(name: string) returns (r: Result<TrackInfo, Error>)
      requires Valid()
      modifies this
      ensures Valid()
      ensures (Model(), r) == M.SelectByName(old(Model()), name)
    {
      if mesh.None? {
        return Err(NoMeshAttached);
      }
      var found := FindIndexByName(tracks, name);
      if found.None? {
        return Err(NotFound(name));
      }
      r := SelectAnimation(found.value);
    }

    /** `getAnimationList`: one entry per clip of the attached mesh, numbered by position. */
    function GetAnimationList(): (list: seq<TrackInfo>)
      requires Valid()
      reads this
      ensures |list| == (if mesh.Some? then |mesh.value.animations| else 0)
      ensures mesh.Some? ==> forall i :: 0 <= i < |list| ==> list[i] == Describe(mesh.value.animations[i], i)
    {
      tracks
    }

    /** `currentAnimationIndex`: -1 or a position in the list. */
    function CurrentAnimationIndex(): (i: int)
      requires Valid()
      reads this
      ensures -1 <= i < |GetAnimationList()|
      ensures i >= 0 <==> action.Some?
    {
      current
    }

    /** `currentAnimationTrack`. */
    function CurrentAnimationTrack(): (t: Option<TrackInfo>)
      requires Valid()
      reads this
      ensures t.Some? <==> CurrentAnimationIndex() >= 0
      ensures t.Some? ==> t.value == GetAnimationList()[CurrentAnimationIndex()]
      ensures t.Some? ==> t.value.index == CurrentAnimationIndex() && t.value.duration == action.value.duration
    {
      M.CurrentTrack(Model())
    }

    /** `hasMultipleAnimations`. */
    function HasMultipleAnimations(): (b: bool)
      requires Valid()
      reads this
      ensures b <==> mesh.Some? && |mesh.value.animations| > 1
    {
      |tracks| > 1
    }

    /** `getAnimationByIndex`: the entry at `index`, none when out of range. */
    function GetAnimationByIndex(index: int): (r: Option<TrackInfo>)
      requires Valid()
      reads this
      ensures r.Some? <==> 0 <= index < |GetAnimationList()|
      ensures r.Some? ==> r.value == GetAnimationList()[index] && r.value.index == index
    {
      Tracks.GetAnimationByIndex(tracks, index)
    }

    /** `getAnimationByName`: the first entry with that name. */
    function GetAnimationByName(name: string): (r: Option<TrackInfo>)
      requires Valid()
      reads this
      ensures r.Some? <==> exists i :: 0 <= i < |tracks| && tracks[i].name == name
      ensures r.Some? ==> r.value.name == name && r.value.index < |tracks| && r.value == tracks[r.value.index]
      ensures r.Some? ==> forall i :: 0 <= i < r.value.index ==> tracks[i].name != name
    {
      Tracks.GetAnimationByName(tracks, name)
    }
  }
}

=== FILE: controls_model.dfy ===
/**
 * The playback controller as a state machine over values: every operation of
 * `FBXAnimationControls` is a step function from the old state to the new one
 * (and its result). The class in module Controls is proved to follow these steps.
 */
module ControlsModel {
  import opened Common
  import opened Errors
  import opened Tracks
  import opened Events
  import TimeDisplay

  /**
   * The engine's action for one clip. `running` is what `isRunning()` answers;
   * `action.play()` sets it and `action.stop()` clears it.
   */
  datatype Action = Action(track: nat, running: bool, paused: bool, time: real, duration: real)

  /** A mesh, identified by `id` (object identity in the source), with its clips. */
  datatype Mesh = Mesh(id: nat, animations: seq<Clip>)

  /** `IAttachOptions`: `play` (the early `needPlay`) and the track to select first. */
  datatype AttachOptions = AttachOptions(play: bool, animationIndex: Option<int>)

  /**
   * `playing` is `_playAnimation`, `stopped` the later `__stopAnimationFlag`,
   * `dragWasPlaying` the slider handlers' captured `status`, `tracks`/`current`
   * the registry, `listeners` the event bus and `log` every listener call made.
   */
  datatype State = State(
    playing: bool,
    stopped: bool,
    dragWasPlaying: bool,
    mesh: Option<Mesh>,
    action: Option<Action>,
    tracks: seq<TrackInfo>,
    current: int,
    listeners: Listeners,
    log: seq<Invocation>)

  /** `play`, `pause`, `stop` and seeking act only when a mesh and an action are bound. */
  predicate Bound(s: State)
  {
    s.mesh.Some? && s.action.Some?
  }

  /**
   * The registry mirrors the attached mesh's clips, the selection is -1 or a valid
   * position, and an action is bound exactly when a mesh is attached and a track is
   * selected; that action belongs to the selected track.
   */
  predicate Inv(s: State)
  {
    && -1 <= s.current < |s.tracks|
    && (s.mesh.None? ==> s.tracks == [])
    && (s.mesh.Some? ==> s.tracks == BuildTrackList(s.mesh.value.animations))
    && (s.action.Some? <==> s.mesh.Some? && s.current >= 0)
    && (s.action.Some? ==>
          s.action.value.track == s.current && s.action.value.duration == s.tracks[s.current].duration)
  }

  /** Everything but the playback flags and the action: mesh, registry, listeners, log. */
  predicate SameSelection(r: State, s: State)
  {
    r.mesh == s.mesh && r.tracks == s.tracks && r.current == s.current
    && r.listeners == s.listeners && r.log == s.log
  }

  /** The construction-time state: nothing attached, not playing, stopped. */
  function Initial(): (s: State)
    ensures Inv(s) && !Bound(s)
    ensures !s.playing && s.stopped && s.current == -1 && s.tracks == []
    ensures s.mesh.None? && s.action.None? && s.listeners == map[] && s.log == [] && !s.dragWasPlaying
  {
    State(false, true, false, None, None, [], -1, map[], [])
  }

  /** `clipAction(clip)`: a new action for the track, not started, at time 0. */
  function Bind(t: TrackInfo): (a: Action)
    ensures a.track == t.index && a.duration == t.duration
    ensures !a.running && !a.paused && a.time == 0.0
  {
    Action(t.index, false, false, 0.0, t.duration)
  }

  /** `play`. */
  function Play(s: State): (r: State)
    ensures !Bound(s) ==> r == s
    ensures Bound(s) ==> Bound(r) && r.playing && r.action.value.running
    ensures Bound(s) ==>
      && r.action.value.time == s.action.value.time
      && r.action.value.track == s.action.value.track
      && r.action.value.duration == s.action.value.duration
    ensures Bound(s) && !s.playing ==> !r.action.value.paused && !r.stopped
    ensures s.playing ==>
      (r.action == (if Bound(s) then Some(s.action.value.(running := true)) else s.action)
       && r.stopped == s.stopped)
    ensures SameSelection(r, s) && r.dragWasPlaying == s.dragWasPlaying
  {
    if !Bound(s) then s
    else
      var s1 := if !s.playing
        then s.(playing := true, stopped := false, action := Some(s.action.value.(paused := false)))
        else s;
      if !s1.action.value.running then s1.(action := Some(s1.action.value.(running := true))) else s1
  }

  /** `pause`. */
  function Pause(s: State): (r: State)
    ensures !(Bound(s) && s.playing) ==> r == s
    ensures Bound(s) && s.playing ==>
      && Bound(r) && !r.playing && r.action.value.paused
      && r.action.value.running == s.action.value.running
      && r.action.value.time == s.action.value.time
      && r.action.value.track == s.action.value.track
      && r.action.value.duration == s.action.value.duration
      && r.stopped == s.stopped
    ensures SameSelection(r, s) && r.dragWasPlaying == s.dragWasPlaying
  {
    if Bound(s) && s.playing
    then s.(playing := false, action := Some(s.action.value.(paused := true)))
    else s
  }

  /** The tested `stop`: `action.stop()` then `setPercentage(0)`. */
  function Stop(s: State): (r: State)
    ensures !(Bound(s) && s.playing) ==> r == s
    ensures Bound(s) && s.playing ==>
      && Bound(r) && !r.playing && r.stopped
      && !r.action.value.running && r.action.value.time == 0.0
      && r.action.value.paused == s.action.value.paused
      && r.action.value.track == s.action.value.track
      && r.action.value.duration == s.action.value.duration
    ensures SameSelection(r, s) && r.dragWasPlaying == s.dragWasPlaying
  {
    if Bound(s) && s.playing then
      var halted := s.(playing := false, stopped := true, action := Some(s.action.value.(running := false)));
      SetPercentage(halted, 0.0)
    else s
  }

  /** `SetTimePercentage`: moves the cursor to `percentage` of the clip. */
  function SetTimePercentage(s: State, percentage: real): (r: State)
    ensures !Bound(s) ==> r == s
    ensures Bound(s) ==>
      && Bound(r)
      && r.action.value.time == TimeDisplay.PercentToTime(percentage, s.action.value.duration)
      && r.action == Some(s.action.value.(time := r.action.value.time))
    ensures SameSelection(r, s) && r.playing == s.playing && r.stopped == s.stopped
    ensures r.dragWasPlaying == s.dragWasPlaying
  {
    if Bound(s) then
      var a := s.action.value;
      s.(action := Some(a.(time := TimeDisplay.PercentToTime(percentage, a.duration))))
    else s
  }

  /** The later `setPercentage`: like `SetTimePercentage`, but a negative time is clamped to 0. */
  function SetPercentage(s: State, percentage: real): (r: State)
    ensures !Bound(s) ==> r == s
    ensures Bound(s) ==>
      && Bound(r)
      && r.action.value.time >= 0.0
      && r.action == Some(s.action.value.(time := r.action.value.time))
    ensures Bound(s) && TimeDisplay.PercentToTime(percentage, s.action.value.duration) >= 0.0 ==>
      r == SetTimePercentage(s, percentage)
    ensures Bound(s) && TimeDisplay.PercentToTime(percentage, s.action.value.duration) < 0.0 ==>
      r.action.value.time == 0.0
    ensures SameSelection(r, s) && r.playing == s.playing && r.stopped == s.stopped
    ensures r.dragWasPlaying == s.dragWasPlaying
  {
    if Bound(s) then
      var a := s.action.value;
      s.(action := Some(a.(time := TimeDisplay.ClampedPercentToTime(percentage, a.duration))))
    else s
  }

  /** The play button's click handler. */
  function PlayButtonClick(s: State): (r: State)
    ensures !Bound(s) ==> r == s
    ensures Bound(s) ==> r.playing == !s.playing
    ensures Bound(s) && s.playing ==> r == Pause(s)
    ensures Bound(s) && !s.playing ==> r == Play(s)
    ensures Bound(s) ==>
      && Bound(r) && r.action.value.paused == s.playing && r.action.value.time == s.action.value.time
      && r.action.value.track == s.action.value.track && r.action.value.duration == s.action.value.duration
    ensures Bound(s) && !s.playing ==> r.action.value.running && !r.stopped
    ensures Bound(s) && s.playing ==>
      r.action.value.running == s.action.value.running && r.stopped == s.stopped
    ensures SameSelection(r, s) && r.dragWasPlaying == s.dragWasPlaying
  {
    if s.playing then Pause(s) else Play(s)
  }

  /** The slider's `mousedown` handler: remembers whether it was playing, then pauses. */
  function SliderMouseDown(s: State): (r: State)
    ensures r.dragWasPlaying == s.playing
    ensures Bound(s) ==> !r.playing
    ensures !(Bound(s) && s.playing) ==> r == s.(dragWasPlaying := s.playing)
    ensures Bound(s) && s.playing ==> r.action == Some(s.action.value.(paused := true))
    ensures SameSelection(r, s) && r.stopped == s.stopped
  {
    Pause(s.(dragWasPlaying := s.playing))
  }

  /** The slider's `input` handler. */
  function SliderInput(s: State, percentage: real): (r: State)
    ensures !Bound(s) ==> r == s
    ensures Bound(s) ==>
      && Bound(r)
      && r.action.value.time == TimeDisplay.PercentToTime(percentage, s.action.value.duration)
      && r.action == Some(s.action.value.(time := r.action.value.time))
    ensures r.playing == s.playing && r.stopped == s.stopped && r.dragWasPlaying == s.dragWasPlaying
    ensures SameSelection(r, s)
  {
    SetTimePercentage(s, percentage)
  }

  /** The slider's `mouseup` handler: resumes only if it was playing at `mousedown`. */
  function SliderMouseUp(s: State): (r: State)
    ensures !s.dragWasPlaying ==> r == s
    ensures Bound(s) ==> r.playing == (s.playing || s.dragWasPlaying)
    ensures s.dragWasPlaying ==> r == Play(s)
    ensures Bound(s) && s.dragWasPlaying ==>
      && Bound(r) && r.action.value.running && r.action.value.time == s.action.value.time
      && r.action.value.track == s.action.value.track && r.action.value.duration == s.action.value.duration
    ensures Bound(s) && s.dragWasPlaying && !s.playing ==> !r.action.value.paused && !r.stopped
    ensures SameSelection(r, s) && r.dragWasPlaying == s.dragWasPlaying
  {
    if s.dragWasPlaying then Play(s) else s
  }

  /** `detach`: unbinds the mesh and its action and clears the registry; the flags stay. */
  function Detach(s: State): (r: State)
    ensures !Bound(r) && r.mesh.None? && r.action.None?
    ensures r.tracks == [] && r.current == -1
    ensures r.playing == s.playing && r.stopped == s.stopped && r.dragWasPlaying == s.dragWasPlaying
    ensures r.listeners == s.listeners && r.log == s.log
  {
    s.(mesh := None, action := None, tracks := [], current := -1)
  }

  /**
   * The track selected on attach: `animationIndex` when it names a track, else
   * track 0 when auto-selection is on and there is a track, else none.
   */
  function InitialIndex(count: nat, requested: Option<int>, autoSelect: bool): (i: int)
    ensures -1 <= i < count
    ensures requested.Some? && 0 <= requested.value < count ==> i == requested.value
    ensures requested.Some? && !(0 <= requested.value < count) ==> i == -1
    ensures requested.None? ==> i == (if autoSelect && count > 0 then 0 else -1)
  {
    match requested
    case Some(k) => if 0 <= k < count then k else -1
    case None => if autoSelect && count > 0 then 0 else -1
  }

  /** The listener calls of one selection event. */
  function SelectionDelivery(s: State, event: string, previous: int, index: nat): Delivery
    requires index < |s.tracks|
  {
    Deliver(ListenersOf(s.listeners, event), event, Selection(s.tracks[index], previous, index))
  }

  /** Appending one delivery's calls to a log: the old log is a prefix, every new entry names the event and data. */
  lemma AppendDelivery(log: seq<Invocation>, cbs: seq<Callback>, event: string, data: EventData)
    ensures var l := log + Deliver(cbs, event, data).calls;
      && |log| <= |l| && l[..|log|] == log
      && forall i :: |log| <= i < |l| ==> l[i].event == event && l[i].data == data
  {
    var d := Deliver(cbs, event, data);
    var l := log + d.calls;
    forall i | |log| <= i < |l| ensures l[i].event == event && l[i].data == data {
      assert l[i] == d.calls[i - |log|];
    }
  }

  /**
   * The notifications of a selection: `ANIMATION_SELECTED` always, then
   * `ANIMATION_TRACK_CHANGED` when an existing selection was switched to another
   * track. A throwing listener ends the notifications and its error is returned.
   */
  function Announce(s: State, previous: int, index: nat): (r: (State, Result<(), Error>))
    requires index < |s.tracks|
    ensures r.0 == s.(log := r.0.log)
    ensures |s.log| <= |r.0.log| && r.0.log[..|s.log|] == s.log
    ensures r.1.Err? ==> r.1.error.ListenerThrew?
  {
    var selected := SelectionDelivery(s, AnimationSelected, previous, index);
    var log1 := s.log + selected.calls;
    if selected.thrown.Some? then (s.(log := log1), Err(ListenerThrew(selected.thrown.value)))
    else if previous == -1 || previous == index then (s.(log := log1), Ok(()))
    else
      var changed := SelectionDelivery(s, AnimationTrackChanged, previous, index);
      var log2 := log1 + changed.calls;
      assert log2[..|s.log|] == s.log by {
        assert log2[..|log1|] == log1;
      }
      if changed.thrown.Some? then (s.(log := log2), Err(ListenerThrew(changed.thrown.value)))
      else (s.(log := log2), Ok(()))
  }

  /**
   * Every call a selection adds to the log carries the selection's data, and an
   * `ANIMATION_TRACK_CHANGED` call is only made for a switch between two tracks.
   */
  lemma AnnounceLogsSelection(s: State, previous: int, index: nat)
    requires index < |s.tracks|
    ensures var l := Announce(s, previous, index).0.log;
      && (forall i :: |s.log| <= i < |l| ==> l[i].data == Selection(s.tracks[index], previous, index))
      && (forall i :: |s.log| <= i < |l| && l[i].event != AnimationSelected ==>
            l[i].event == AnimationTrackChanged && previous != -1 && previous != index)
  {
    var data := Selection(s.tracks[index], previous, index);
    var l := Announce(s, previous, index).0.log;
    var log1 := s.log + SelectionDelivery(s, AnimationSelected, previous, index).calls;
    AppendDelivery(s.log, ListenersOf(s.listeners, AnimationSelected), AnimationSelected, data);
    if l != log1 {
      AppendDelivery(log1, ListenersOf(s.listeners, AnimationTrackChanged), AnimationTrackChanged, data);
    }
  }

  /**
   * What a selection announces: every `ANIMATION_SELECTED` listener is called in
   * order until one throws, whose error is returned; when none throws and an
   * existing selection switched to another track, every `ANIMATION_TRACK_CHANGED`
   * listener is then called the same way.
   */
  lemma AnnounceCalls(s: State, previous: int, index: nat)
    requires index < |s.tracks|
    ensures var r := Announce(s, previous, index);
      var selected := SelectionDelivery(s, AnimationSelected, previous, index);
      var changed := SelectionDelivery(s, AnimationTrackChanged, previous, index);
      && (selected.thrown.Some? ==>
            r.0.log == s.log + selected.calls && r.1 == Err(ListenerThrew(selected.thrown.value)))
      && (selected.thrown.None? && (previous == -1 || previous == index) ==>
            r.0.log == s.log + selected.calls && r.1 == Ok(()))
      && (selected.thrown.None? && previous != -1 && previous != index ==>
            && r.0.log == s.log + selected.calls + changed.calls
            && (changed.thrown.Some? <==> r.1.Err?)
            && (changed.thrown.Some? ==> r.1 == Err(ListenerThrew(changed.thrown.value))))
  {
  }

  /** A selection's notifications depend only on the listeners, the registry and the log. */
  lemma AnnounceReadsBus(s: State, t: State, previous: int, index: nat)
    requires index < |s.tracks|
    requires t.listeners == s.listeners && t.tracks == s.tracks && t.log == s.log
    ensures Announce(t, previous, index).0.log == Announce(s, previous, index).0.log
    ensures Announce(t, previous, index).1 == Announce(s, previous, index).1
  {
  }

  /**
   * The state `attach` reaches before any notification: the new mesh and its
   * registry, the initial track bound to a fresh action, and playback started if
   * asked.
   */
  function AttachBinding(s: State, m: Mesh, options: AttachOptions, autoSelect: bool): (b: State)
    ensures b.mesh == Some(m)
    ensures b.tracks == BuildTrackList(m.animations)
    ensures b.current == InitialIndex(|m.animations|, options.animationIndex, autoSelect)
    ensures b.action.Some? <==> b.current >= 0
    ensures b.action.Some? ==>
      && b.action.value.track == b.current && b.action.value.time == 0.0
      && b.action.value.running == options.play && !b.action.value.paused
    ensures b.playing == (s.playing || (options.play && b.current >= 0))
    ensures b.stopped == (if options.play && b.current >= 0 && !s.playing then false else s.stopped)
    ensures b.dragWasPlaying == s.dragWasPlaying
    ensures b.listeners == s.listeners && b.log == s.log
  {
    var tracks := BuildTrackList(m.animations);
    var index := InitialIndex(|tracks|, options.animationIndex, autoSelect);
    var bound := s.(mesh := Some(m), tracks := tracks, current := index,
                    action := if index >= 0 then Some(Bind(tracks[index])) else None);
    if options.play then Play(bound) else bound
  }

  /**
   * `attach`: a mesh other than the attached one replaces it, the registry is
   * rebuilt from its clips, the initial track is bound, playback starts if asked,
   * and the selection is announced with previous index -1. Attaching the attached
   * mesh again fails with 'already attached' and changes nothing.
   */
  function Attach(s: State, m: Mesh, options: AttachOptions, autoSelect: bool): (r: (State, Result<(), Error>))
    ensures s.mesh.Some? && s.mesh.value.id == m.id ==> r == (s, Err(AlreadyAttached))
    ensures !(s.mesh.Some? && s.mesh.value.id == m.id) ==>
      && r.0 == AttachBinding(s, m, options, autoSelect).(log := r.0.log)
      && (r.0.current < 0 ==> r.1 == Ok(()) && r.0.log == s.log)
      && (r.1.Err? ==> r.1.error.ListenerThrew?)
    ensures !(s.mesh.Some? && s.mesh.value.id == m.id) && r.0.current >= 0 ==>
      var b := AttachBinding(s, m, options, autoSelect);
      r.0.log == Announce(b, -1, b.current).0.log && r.1 == Announce(b, -1, b.current).1
  {
    if s.mesh.Some? && s.mesh.value.id == m.id then (s, Err(AlreadyAttached))
    else
      var bound := AttachBinding(s, m, options, autoSelect);
      if bound.current >= 0 then Announce(bound, -1, bound.current) else (bound, Ok(()))
  }

  /**
   * `selectAnimation`: fails with 'No mesh attached' or with the index error and
   * changes nothing; otherwise binds the new track's action at time 0, resumes it
   * if it was playing (else the controller is stopped), and announces the switch.
   */
  function Select(s: State, index: int): (r: (State, Result<TrackInfo, Error>))
    ensures s.mesh.None? ==> r == (s, Err(NoMeshAttached))
    ensures s.mesh.Some? && !(0 <= index < |s.tracks|) ==> r == (s, Err(InvalidIndex(|s.tracks|)))
    ensures s.mesh.Some? && 0 <= index < |s.tracks| ==>
      && r.0.current == index
      && r.0.mesh == s.mesh && r.0.tracks == s.tracks && r.0.listeners == s.listeners
      && r.0.playing == s.playing && r.0.stopped == !s.playing
      && r.0.action.Some? && r.0.action.value.time == 0.0
      && r.0.action.value.track == s.tracks[index].index
      && r.0.action.value.duration == s.tracks[index].duration
      && r.0.action.value.running == s.playing
      && !r.0.action.value.paused
      && r.0.dragWasPlaying == s.dragWasPlaying
      && (r.1.Ok? ==> r.1.value == s.tracks[index])
      && (r.1.Err? ==> r.1.error.ListenerThrew?)
    ensures s.mesh.Some? && 0 <= index < |s.tracks| ==>
      && r.0.log == Announce(s, s.current, index).0.log
      && (r.1.Err? <==> Announce(s, s.current, index).1.Err?)
      && (r.1.Err? ==> r.1.error == Announce(s, s.current, index).1.error)
  {
    if s.mesh.None? then (s, Err(NoMeshAttached))
    else if !(0 <= index < |s.tracks|) then (s, Err(InvalidIndex(|s.tracks|)))
    else
      var switched := s.(current := index, stopped := !s.playing, action := Some(Bind(s.tracks[index])));
      var resumed := if s.playing then Play(switched) else switched;
      AnnounceReadsBus(s, resumed, s.current, index);
      var announced := Announce(resumed, s.current, index);
      (announced.0, if announced.1.Ok? then Ok(s.tracks[index]) else Err(announced.1.error))
  }

  /** `selectAnimationByName`: selects the first track with that name. */
  function SelectByName(s: State, name: string): (r: (State, Result<TrackInfo, Error>))
    ensures s.mesh.None? ==> r == (s, Err(NoMeshAttached))
    ensures s.mesh.Some? && FindIndexByName(s.tracks, name).None? ==> r == (s, Err(NotFound(name)))
    ensures s.mesh.Some? && FindIndexByName(s.tracks, name).Some? ==>
      r == Select(s, FindIndexByName(s.tracks, name).value)
  {
    if s.mesh.None? then (s, Err(NoMeshAttached))
    else
      match FindIndexByName(s.tracks, name)
      case None => (s, Err(NotFound(name)))
      case Some(i) => Select(s, i)
  }

  /** `on`. */
  function On(s: State, event: string, cb: Callback): (r: State)
    ensures ListenersOf(r.listeners, event) == ListenersOf(s.listeners, event) + [cb]
    ensures forall e :: e != event ==> ListenersOf(r.listeners, e) == ListenersOf(s.listeners, e)
    ensures r == s.(listeners := r.listeners)
  {
    s.(listeners := Register(s.listeners, event, cb))
  }

  /** `dispatch`: the listener calls are appended to the log; a throwing listener's id is returned. */
  function Dispatch(s: State, event: string, data: EventData): (r: (State, Option<nat>))
    ensures r.0 == s.(log := r.0.log)
    ensures var d := Deliver(ListenersOf(s.listeners, event), event, data);
      r.0.log == s.log + d.calls && r.1 == d.thrown
  {
    var d := Deliver(ListenersOf(s.listeners, event), event, data);
    (s.(log := s.log + d.calls), d.thrown)
  }

  /** `currentAnimationTrack`. */
  function CurrentTrack(s: State): (t: Option<TrackInfo>)
    requires Inv(s)
    ensures t.Some? <==> s.current >= 0
    ensures t.Some? ==> t.value == s.tracks[s.current]
  {
    if s.current >= 0 then Some(s.tracks[s.current]) else None
  }

  // ---------------------------------------------------------------------------
  // Properties of the state machine
  // ---------------------------------------------------------------------------

  /** Before anything is attached, no operation of the transport changes anything. */
  lemma UnboundIsNoop(s: State, percentage: real)
    requires !Bound(s)
    ensures Play(s) == s && Pause(s) == s && Stop(s) == s
    ensures SetTimePercentage(s, percentage) == s && PlayButtonClick(s) == s
  {
  }

  /** Repeating `play` changes nothing more: the flag is already set and the action already runs. */
  lemma PlayIdempotent(s: State)
    ensures Play(Play(s)) == Play(s)
  {
  }

  /** `play` on a playing, running action starts nothing new. */
  lemma PlayWhileRunningIsNoop(s: State)
    requires Bound(s) && s.playing && s.action.value.running
    ensures Play(s) == s
  {
  }

  /** A second `pause` or `stop` does nothing. */
  lemma PauseAndStopIdempotent(s: State)
    ensures Pause(Pause(s)) == Pause(s)
    ensures Stop(Stop(s)) == Stop(s)
  {
  }

  /** Two clicks of the play button restore the playing flag. */
  lemma ClickTwiceRestoresFlag(s: State)
    requires Bound(s)
    ensures PlayButtonClick(PlayButtonClick(s)).playing == s.playing
  {
  }

  /** A slider drag seeks and leaves playback as it was at `mousedown`. */
  lemma SliderDragRestoresPlayback(s: State, percentage: real)
    requires Bound(s)
    ensures var r := SliderMouseUp(SliderInput(SliderMouseDown(s), percentage));
      && Bound(r) && r.playing == s.playing
      && r.action.value.time == TimeDisplay.PercentToTime(percentage, s.action.value.duration)
  {
  }

  /** After `detach` the transport is inert, whatever the flag says. */
  lemma DetachedIsInert(s: State, percentage: real)
    ensures var d := Detach(s);
      Play(d) == d && Pause(d) == d && Stop(d) == d && SetTimePercentage(d, percentage) == d
  {
  }

  /** With the default options, attaching a new mesh binds its first clip, started only if asked. */
  lemma AttachBindsFirstClip(s: State, m: Mesh, play: bool)
    requires !(s.mesh.Some? && s.mesh.value.id == m.id)
    requires |m.animations| > 0
    ensures var r := Attach(s, m, AttachOptions(play, None), true).0;
      && Inv(r) && r.current == 0
      && r.action == Some(Action(0, play, false, 0.0, m.animations[0].duration))
      && (play ==> r.playing)
  {
    var r := Attach(s, m, AttachOptions(play, None), true).0;
    assert BuildTrackList(m.animations)[0] == Describe(m.animations[0], 0);
  }

  /** After a successful attach the registry holds one entry per clip; several clips iff more than one entry. */
  lemma AttachBuildsRegistry(s: State, m: Mesh, options: AttachOptions, autoSelect: bool)
    requires !(s.mesh.Some? && s.mesh.value.id == m.id)
    ensures var r := Attach(s, m, options, autoSelect).0;
      && Inv(r)
      && |r.tracks| == |m.animations|
      && (forall i :: 0 <= i < |r.tracks| ==> r.tracks[i] == Describe(m.animations[i], i))
      && (|r.tracks| > 1 <==> |m.animations| > 1)
      && (|m.animations| == 0 ==> r.current == -1 && r.action.None?)
      && (!autoSelect && options.animationIndex.None? ==> r.current == -1)
  {
  }

  /** The first selection on attach announces ANIMATION_SELECTED with previous index -1 and no track change. */
  lemma AttachAnnouncesFirstSelection(s: State, m: Mesh, options: AttachOptions, autoSelect: bool)
    requires !(s.mesh.Some? && s.mesh.value.id == m.id)
    requires forall c :: c in ListenersOf(s.listeners, AnimationSelected) ==> !c.throws
    ensures var r := Attach(s, m, options, autoSelect);
      r.0.current >= 0 ==>
        && r.1 == Ok(())
        && r.0.log == s.log + SelectionDelivery(r.0, AnimationSelected, -1, r.0.current).calls
  {
    var r := Attach(s, m, options, autoSelect);
    if r.0.current >= 0 {
      var cbs := ListenersOf(s.listeners, AnimationSelected);
      assert forall i :: 0 <= i < |cbs| ==> !cbs[i].throws by {
        forall i | 0 <= i < |cbs| ensures !cbs[i].throws { assert cbs[i] in cbs; }
      }
    }
  }

  /**
   * Switching from one selected track to another with well-behaved listeners logs
   * one ANIMATION_SELECTED call per listener and then one ANIMATION_TRACK_CHANGED
   * call per listener, both carrying the previous and the new index.
   */
  lemma SwitchAnnouncesTrackChange(s: State, index: int)
    requires Inv(s) && s.mesh.Some? && 0 <= s.current && 0 <= index < |s.tracks| && index != s.current
    requires forall c :: c in ListenersOf(s.listeners, AnimationSelected) ==> !c.throws
    requires forall c :: c in ListenersOf(s.listeners, AnimationTrackChanged) ==> !c.throws
    ensures var r := Select(s, index);
      && r.1 == Ok(s.tracks[index])
      && r.0.log == s.log
        + Deliver(ListenersOf(s.listeners, AnimationSelected), AnimationSelected,
                  Selection(s.tracks[index], s.current, index)).calls
        + Deliver(ListenersOf(s.listeners, AnimationTrackChanged), AnimationTrackChanged,
                  Selection(s.tracks[index], s.current, index)).calls
  {
    var a := ListenersOf(s.listeners, AnimationSelected);
    var b := ListenersOf(s.listeners, AnimationTrackChanged);
    assert forall i :: 0 <= i < |a| ==> !a[i].throws by {
      forall i | 0 <= i < |a| ensures !a[i].throws { assert a[i] in a; }
    }
    assert forall i :: 0 <= i < |b| ==> !b[i].throws by {
      forall i | 0 <= i < |b| ensures !b[i].throws { assert b[i] in b; }
    }
  }

  /** A failed selection leaves the whole state, including the current index, as it was. */
  lemma FailedSelectionChangesNothing(s: State, index: int)
    requires Select(s, index).1.Err? && !Select(s, index).1.error.ListenerThrew?
    ensures Select(s, index).0 == s
  {
  }

  /** The transport operations, the handlers, `detach` and the event bus keep the invariant. */
  lemma TransportPreservesInv(s: State, percentage: real, event: string, cb: Callback, data: EventData)
    requires Inv(s)
    ensures Inv(Play(s)) && Inv(Pause(s)) && Inv(Stop(s))
    ensures Inv(SetTimePercentage(s, percentage)) && Inv(SetPercentage(s, percentage))
    ensures Inv(PlayButtonClick(s)) && Inv(SliderMouseDown(s)) && Inv(SliderMouseUp(s))
    ensures Inv(SliderInput(s, percentage))
    ensures Inv(Detach(s)) && Inv(On(s, event, cb)) && Inv(Dispatch(s, event, data).0)
  {
  }

  /** `attach` keeps the invariant. */
  lemma AttachPreservesInv(s: State, m: Mesh, options: AttachOptions, autoSelect: bool)
    requires Inv(s)
    ensures Inv(Attach(s, m, options, autoSelect).0)
  {
  }

  /** `selectAnimation` keeps the invariant. */
  lemma SelectPreservesInv(s: State, index: int)
    requires Inv(s)
    ensures Inv(Select(s, index).0)
  {
  }

  /** `selectAnimationByName` keeps the invariant. */
  lemma SelectByNamePreservesInv(s: State, name: string)
    requires Inv(s)
    ensures Inv(SelectByName(s, name).0)
  {
    if s.mesh.Some? && FindIndexByName(s.tracks, name).Some? {
      SelectPreservesInv(s, FindIndexByName(s.tracks, name).value);
    }
  }

  /** Selecting the tracks in `indices` one after another. */
  function SelectAll(s: State, indices: seq<int>): State
    decreases |indices|
  {
    if indices == [] then s else SelectAll(Select(s, indices[0]).0, indices[1..])
  }

  /** After several switches the current index is the last one selected, and the playing flag is kept. */
  lemma {:induction false} LastSelectionWins(s: State, indices: seq<int>)
    requires Inv(s) && s.mesh.Some? && |indices| > 0
    requires forall i :: 0 <= i < |indices| ==> 0 <= indices[i] < |s.tracks|
    ensures var r := SelectAll(s, indices);
      && r.current == indices[|indices| - 1]
      && r.playing == s.playing
      && r.tracks == s.tracks
      && r.action.Some? && r.action.value.time == 0.0
    decreases |indices|
  {
    var t := Select(s, indices[0]).0;
    SelectPreservesInv(s, indices[0]);
    if |indices| > 1 {
      LastSelectionWins(t, indices[1..]);
    }
  }

  /** `selectAnimationByName` picks the first entry with that name, duplicates notwithstanding. */
  lemma SelectByNameTakesFirst(s: State, name: string)
    requires Inv(s) && s.mesh.Some?
    requires exists j :: 0 <= j < |s.tracks| && s.tracks[j].name == name
    ensures var r := SelectByName(s, name);
      && 0 <= r.0.current < |s.tracks|
      && s.tracks[r.0.current].name == name
      && forall j :: 0 <= j < r.0.current ==> s.tracks[j].name != name
  {
  }
}

=== FILE: decimal.dfy ===
/** Decimal rendering of naturals, as JavaScript's `String(n)` for a non-negative integer. */
module Decimal {

  predicate IsDigit(c: char) { '0' <= c <= '9' }

  predicate AllDigits(s: string) { forall i :: 0 <= i < |s| ==> IsDigit(s[i]) }

  function DigitValue(c: char): (d: nat)
    requires IsDigit(c)
    ensures d < 10
  {
    c as int - '0' as int
  }

  function DigitChar(d: nat): (c: char)
    requires d < 10
    ensures IsDigit(c) && DigitValue(c) == d
  {
    (d + '0' as int) as char
  }

  /** The shortest decimal numeral of `n`: no leading zero unless `n` is zero. */
  function Show(n: nat): (s: string)
    ensures 1 <= |s| && AllDigits(s)
    ensures n < 10 <==> |s| == 1
    ensures n < 100 <==> |s| <= 2
    ensures |s| > 1 ==> s[0] != '0'
    decreases n
  {
    if n < 10 then [DigitChar(n)] else Show(n / 10) + [DigitChar(n % 10)]
  }

  /** The value of a numeral; the reading back of `Show`. */
  function Parse(s: string): (n: nat)
    requires AllDigits(s)
    decreases |s|
  {
    if s == [] then 0 else Parse(s[..|s| - 1]) * 10 + DigitValue(s[|s| - 1])
  }

  /** A signed integer as JavaScript prints it in a template literal. */
  function ShowInt(i: int): (s: string)
    ensures 1 <= |s|
    ensures i >= 0 ==> s == Show(i)
    ensures i < 0 ==> s[0] == '-' && s[1..] == Show(-i)
  {
    if i < 0 then "-" + Show(-i) else Show(i)
  }

  lemma {:induction false} ParseShow(n: nat)
    ensures Parse(Show(n)) == n
    decreases n
  {
    if n >= 10 {
      var s := Show(n);
      assert s[..|s| - 1] == Show(n / 10);
      ParseShow(n / 10);
    }
  }

  /** A leading zero does not change the value of a numeral. */
  lemma {:induction false} ParseLeadingZero(s: string)
    requires AllDigits(s)
    ensures AllDigits("0" + s) && Parse("0" + s) == Parse(s)
    decreases |s|
  {
    var z := "0" + s;
    if s != [] {
      assert z[..|z| - 1] == "0" + s[..|s| - 1];
      ParseLeadingZero(s[..|s| - 1]);
    }
  }

  /** Distinct naturals have distinct numerals. */
  lemma ShowInjective(a: nat, b: nat)
    requires Show(a) == Show(b)
    ensures a == b
  {
    ParseShow(a);
    ParseShow(b);
  }
}

=== FILE: errors.dfy ===
/** The errors the controller raises, with the messages the test suite expects. */
module Errors {
  import opened Decimal

  datatype Error =
    | AlreadyAttached
    | ClipRequired
    | NoMeshAttached
    | InvalidIndex(count: nat)
    | NotFound(name: string)
      /** A listener threw; its own error propagates out of the dispatch. */
    | ListenerThrew(callback: nat)

  /** The message of an error raised by the controller itself. */
  function Message(e: Error): (m: string)
    requires !e.ListenerThrew?
    ensures e.NotFound? ==> |m| == |e.name| + 22 && m[11..11 + |e.name|] == e.name
    ensures e.InvalidIndex? ==> |m| > 47 && (e.count >= 1 ==> AllDigits(m[47..]))
  {
    match e
    case AlreadyAttached => "already attached"
    case ClipRequired => "Animation clip is required"
    case NoMeshAttached => "No mesh attached"
    case InvalidIndex(count) => "Invalid animation index. Must be between 0 and " + ShowInt(count - 1)
    case NotFound(name) => "Animation \"" + name + "\" not found"
  }

  /** The index error names the last valid index, as the selector tests expect. */
  lemma {:induction false} InvalidIndexMessage(count: nat)
    requires count >= 1
    ensures var m := Message(InvalidIndex(count));
      var p := "Invalid animation index. Must be between 0 and ";
      |m| > |p| && m[..|p|] == p && AllDigits(m[|p|..]) && Parse(m[|p|..]) == count - 1
  {
    var p := "Invalid animation index. Must be between 0 and ";
    var m := Message(InvalidIndex(count));
    assert m == p + Show(count - 1);
    assert m[|p|..] == Show(count - 1);
    ParseShow(count - 1);
  }

  /** Which kind of error raised by the controller a value is. */
  function Kind(e: Error): nat
  {
    match e
    case AlreadyAttached => 0
    case ClipRequired => 1
    case NoMeshAttached => 2
    case InvalidIndex(_) => 3
    case NotFound(_) => 4
    case ListenerThrew(_) => 5
  }

  /** Reads the kind of error back from a message's first and eleventh characters. */
  function KindOfMessage(m: string): nat
  {
    if |m| <= 10 then 5
    else if m[0] == 'a' then 0
    else if m[0] == 'N' then 2
    else if m[0] == 'I' then 3
    else if m[10] == 'c' then 1
    else 4
  }

  /** The kind of an error can be read back from its message. */
  lemma MessageShowsKind(e: Error)
    requires !e.ListenerThrew?
    ensures KindOfMessage(Message(e)) == Kind(e)
  {
    match e
    case InvalidIndex(count) =>
      var p := "Invalid animation index. Must be between 0 and ";
      assert Message(e) == p + ShowInt(count - 1);
      assert p == "Invalid " + p[8..];
      assert Message(e)[0] == 'I';
    case NotFound(name) =>
      var p := "Animation \"";
      assert Message(e) == p + name + "\" not found";
      assert Message(e)[0] == p[0] == 'A' && Message(e)[10] == p[10] == '"';
    case _ =>
  }

  /** Distinct errors have distinct messages, so a caller can tell them apart by message. */
  lemma MessageInjective(e1: Error, e2: Error)
    requires !e1.ListenerThrew? && !e2.ListenerThrew?
    requires Message(e1) == Message(e2)
    ensures e1 == e2
  {
    MessageShowsKind(e1);
    MessageShowsKind(e2);
    var m := Message(e1);
    if e1.InvalidIndex? && e2.InvalidIndex? {
      var a, b := e1.count - 1, e2.count - 1;
      assert ShowInt(a) == m[47..] == ShowInt(b);
      if a >= 0 && b >= 0 {
        ShowInjective(a, b);
      }
    } else if e1.NotFound? && e2.NotFound? {
      assert e1.name == m[11..|m| - 11] == e2.name;
    }
  }

  lemma TestedMessages()
    ensures Message(InvalidIndex(3)) == "Invalid animation index. Must be between 0 and 2"
    ensures Message(NotFound("NonExistent")) == "Animation \"NonExistent\" not found"
  {
  }
}

=== FILE: events.dfy ===
/**
 * The controller's event bus (`on` / `dispatch`): listeners registered per event
 * name, called in registration order with the event's data. A listener is modelled
 * by an identity and whether it throws; a throwing listener ends the dispatch and
 * its error propagates to the caller.
 */
module Events {
  import opened Common
  import opened Tracks

  const Play: string := "PLAY"
  const Pause: string := "PAUSE"
  const Stop: string := "STOP"
  const MeshAttached: string := "MESH_ATTACHED"
  const MeshDetached: string := "MESH_DETACHED"
  const ChangePercentage: string := "CHANGE_PERCENTAGE"
  const ChangeTime: string := "CHANGE_TIME"
  const AnimationSelected: string := "ANIMATION_SELECTED"
  const AnimationTrackChanged: string := "ANIMATION_TRACK_CHANGED"

  datatype Callback = Callback(id: nat, throws: bool)

  /** The payload handed to listeners. */
  datatype EventData =
    | NoData
    | Text(text: string)
      /** `IAnimationSelectionEventData`. */
    | Selection(animationInfo: TrackInfo, previousIndex: int, currentIndex: int)

  /** One call of one listener. */
  datatype Invocation = Invocation(callback: nat, event: string, data: EventData)

  /** What a dispatch did: the calls made, in order, and the listener that threw, if one did. */
  datatype Delivery = Delivery(calls: seq<Invocation>, thrown: Option<nat>)

  type Listeners = map<string, seq<Callback>>

  /** The listeners registered for `event`; none for a name never registered. */
  function ListenersOf(listeners: Listeners, event: string): (cbs: seq<Callback>)
    ensures event !in listeners ==> cbs == []
  {
    if event in listeners then listeners[event] else []
  }

  /** `on`: appends `cb` to the listeners of `event`, leaving every other event's list alone. */
  function Register(listeners: Listeners, event: string, cb: Callback): (r: Listeners)
    ensures ListenersOf(r, event) == ListenersOf(listeners, event) + [cb]
    ensures forall e :: e != event ==> ListenersOf(r, e) == ListenersOf(listeners, e)
  {
    listeners[event := ListenersOf(listeners, event) + [cb]]
  }

  /** Calling `cbs` in order with `data` until one of them throws. */
  function Deliver(cbs: seq<Callback>, event: string, data: EventData): (d: Delivery)
    ensures |d.calls| <= |cbs|
    ensures forall i :: 0 <= i < |d.calls| ==> d.calls[i] == Invocation(cbs[i].id, event, data)
    ensures d.thrown.None? <==> forall i :: 0 <= i < |cbs| ==> !cbs[i].throws
    ensures d.thrown.None? ==> |d.calls| == |cbs|
    ensures d.thrown.Some? ==>
      && 0 < |d.calls|
      && cbs[|d.calls| - 1].throws
      && d.thrown.value == cbs[|d.calls| - 1].id
      && forall i :: 0 <= i < |d.calls| - 1 ==> !cbs[i].throws
    decreases |cbs|
  {
    if cbs == [] then Delivery([], None)
    else
      var first := Invocation(cbs[0].id, event, data);
      if cbs[0].throws then Delivery([first], Some(cbs[0].id))
      else
        var rest := Deliver(cbs[1..], event, data);
        Delivery([first] + rest.calls, rest.thrown)
  }

  /** Dispatching a name nobody listens to calls nothing and raises nothing. */
  lemma DispatchUnknownIsNoop(listeners: Listeners, event: string, data: EventData)
    requires event !in listeners
    ensures Deliver(ListenersOf(listeners, event), event, data) == Delivery([], None)
  {
  }

  /**
   * A registered listener is called with the dispatched data, after the ones
   * registered before it, unless one of those throws first.
   */
  lemma RegisteredListenerIsCalled(listeners: Listeners, event: string, cb: Callback, data: EventData)
    requires forall c :: c in ListenersOf(listeners, event) ==> !c.throws
    ensures var d := Deliver(ListenersOf(Register(listeners, event, cb), event), event, data);
      && |d.calls| == |ListenersOf(listeners, event)| + 1
      && d.calls[|d.calls| - 1] == Invocation(cb.id, event, data)
      && d.thrown == (if cb.throws then Some(cb.id) else None)
  {
    var before := ListenersOf(listeners, event);
    var cbs := before + [cb];
    assert forall i :: 0 <= i < |before| ==> !cbs[i].throws by {
      forall i | 0 <= i < |before| ensures !cbs[i].throws {
        assert cbs[i] == before[i] && before[i] in before;
      }
    }
    var d := Deliver(cbs, event, data);
    if d.thrown.Some? {
      assert |d.calls| == |cbs|;
    }
  }

  /** A throwing listener stops delivery: the ones after it are not called. */
  lemma ThrowStopsDelivery(cbs: seq<Callback>, k: nat, event: string, data: EventData)
    requires k < |cbs| && cbs[k].throws
    ensures var d := Deliver(cbs, event, data);
      d.thrown.Some? && |d.calls| <= k + 1
  {
  }
}

=== FILE: time_display.dfy ===
/**
 * The time display of the animation controls: a playback cursor given in whole
 * milliseconds rendered as "MM:SS:CC" (minutes, seconds, centiseconds) or "SS:CC",
 * and the slider's percentage <-> seconds conversions.
 *
 * Two centisecond rules live here side by side: the early `_timePrepare` rounds
 * the sub-second remainder, the tested formatter floors it.
 */
module TimeDisplay {
  import opened Decimal

  datatype OutputFormat = MmSsMs | SsMs

  const MsPerSecond: nat := 1000
  const MsPerMinute: nat := 60000
  /** getUTCMinutes wraps at the hour. */
  const MsPerHour: nat := 3600000

  /** getUTCMinutes of a non-negative millisecond count. */
  function Minutes(ms: nat): (m: nat)
    ensures m < 60
  {
    (ms / MsPerMinute) % 60
  }

  /** getUTCSeconds of a non-negative millisecond count. */
  function Seconds(ms: nat): (s: nat)
    ensures s < 60
  {
    (ms / MsPerSecond) % 60
  }

  /** `(getUTCMilliseconds() / 10).toFixed(0)`: the remainder rounded half up to centiseconds. */
  function CentisRounded(ms: nat): (c: nat)
    ensures c <= 100
    ensures c == 100 <==> ms % MsPerSecond >= 995
  {
    (ms % MsPerSecond + 5) / 10
  }

  /** The tested centisecond field: the remainder floored to whole centiseconds. */
  function CentisFloored(ms: nat): (c: nat)
    ensures c < 100
    ensures c * 10 <= ms % MsPerSecond < c * 10 + 10
  {
    (ms % MsPerSecond) / 10
  }

  /** `v < 10 ? '0' + v : v`: a field padded to two digits when it is below ten. */
  function Pad(n: nat): (s: string)
    ensures AllDigits(s) && Parse(s) == n
    ensures n < 100 <==> |s| == 2
  {
    ParseShow(n);
    if n < 10 then ParseLeadingZero(Show(n)); "0" + Show(n) else Show(n)
  }

  /** The early `_timePrepare` on a whole, non-negative millisecond count. */
  function TimePrepare(ms: nat): (s: string)
    ensures |s| == 8 <==> ms % MsPerSecond < 995
  {
    Pad(Minutes(ms)) + ":" + Pad(Seconds(ms)) + ":" + Pad(CentisRounded(ms))
  }

  /** The millisecond count the tested formatter works on: negatives clamp to zero. */
  function Clamp(ms: int): (t: nat)
    ensures ms >= 0 ==> t == ms
    ensures ms < 0 ==> t == 0
  {
    if ms < 0 then 0 else ms
  }

  /** The tested `getAnimationTimeDisplayString` on a whole millisecond count. */
  function DisplayString(ms: int, format: OutputFormat): (s: string)
    ensures format == MmSsMs ==> |s| == 8 && s[2] == ':' && s[5] == ':'
    ensures format == SsMs ==> |s| == 5 && s[2] == ':'
  {
    var t := Clamp(ms);
    match format
    case MmSsMs => Pad(Minutes(t)) + ":" + Pad(Seconds(t)) + ":" + Pad(CentisFloored(t))
    case SsMs => Pad(Seconds(t)) + ":" + Pad(CentisFloored(t))
  }

  /** The display counted in centiseconds, as the fields of `DisplayString` spell it. */
  function DisplayedCentis(ms: nat): nat
  {
    Minutes(ms) * 6000 + Seconds(ms) * 100 + CentisFloored(ms)
  }

  /** Every field of the long display reads back as the clock component it shows. */
  lemma DisplayFieldsDecode(ms: int)
    ensures var s := DisplayString(ms, MmSsMs);
      AllDigits(s[0..2]) && AllDigits(s[3..5]) && AllDigits(s[6..8])
      && Parse(s[0..2]) == Minutes(Clamp(ms))
      && Parse(s[3..5]) == Seconds(Clamp(ms))
      && Parse(s[6..8]) == CentisFloored(Clamp(ms))
  {
    var t := Clamp(ms);
    var s := DisplayString(ms, MmSsMs);
    assert s[0..2] == Pad(Minutes(t));
    assert s[3..5] == Pad(Seconds(t));
    assert s[6..8] == Pad(CentisFloored(t));
  }

  /** The short display shows the same seconds and centiseconds as the long one. */
  lemma ShortFormIsSuffix(ms: int)
    ensures DisplayString(ms, SsMs) == DisplayString(ms, MmSsMs)[3..]
  {
  }

  /**
   * Within the hour the display is exact to the centisecond: the three fields
   * together equal the count floored to centiseconds.
   */
  lemma DisplayIsExactWithinHour(ms: nat)
    requires ms < MsPerHour
    ensures DisplayedCentis(ms) == ms / 10
  {
    var q, r0 := ms / 10, ms % 10;
    var q1, c := q / 100, q % 100;
    var m, s1 := q1 / 60, q1 % 60;
    assert ms == 1000 * q1 + (10 * c + r0);
    assert ms / 1000 == q1 && ms % 1000 == 10 * c + r0;
    assert CentisFloored(ms) == c;
    assert ms == 60000 * m + (1000 * s1 + 10 * c + r0);
    assert ms / 60000 == m;
    assert m < 60;
    assert Minutes(ms) == m && Seconds(ms) == s1;
  }

  /** Scrubbing forward never makes the display go back, within the hour. */
  lemma DisplayMonotoneWithinHour(a: nat, b: nat)
    requires a <= b < MsPerHour
    ensures DisplayedCentis(a) <= DisplayedCentis(b)
  {
    DisplayIsExactWithinHour(a);
    DisplayIsExactWithinHour(b);
  }

  /** From one second up to the hour the long display is never "00:00:00". */
  lemma NoZeroDisplayAfterOneSecond(ms: int)
    requires MsPerSecond <= ms < MsPerHour
    ensures DisplayString(ms, MmSsMs) != "00:00:00"
  {
    DisplayFieldsDecode(ms);
    DisplayIsExactWithinHour(ms);
    var z := "00:00:00";
    assert z[0..2] == "00" && z[3..5] == "00" && z[6..8] == "00";
    assert Parse("00") == 0;
  }

  /** getUTCMinutes wraps: a count of exactly one hour displays as zero. */
  lemma HourWrap()
    ensures DisplayString(MsPerHour, MmSsMs) == "00:00:00"
  {
  }

  /** The two centisecond rules differ by one exactly when the last digit is 5 or more. */
  lemma RoundedVersusFloored(ms: nat)
    ensures CentisRounded(ms) == CentisFloored(ms) + (if ms % 10 >= 5 then 1 else 0)
  {
    var k, r := ms / 1000, ms % 1000;
    assert r == 10 * (r / 10) + r % 10;
    assert ms == 10 * (100 * k + r / 10) + r % 10;
    assert ms % 10 == r % 10;
  }

  /** The early and the tested long displays agree exactly when the millisecond digit is below 5. */
  lemma TimePrepareAgreesIff(ms: nat)
    ensures TimePrepare(ms) == DisplayString(ms, MmSsMs) <==> ms % 10 < 5
  {
    RoundedVersusFloored(ms);
    var prefix := Pad(Minutes(ms)) + ":" + Pad(Seconds(ms)) + ":";
    assert TimePrepare(ms) == prefix + Pad(CentisRounded(ms));
    assert DisplayString(ms, MmSsMs) == prefix + Pad(CentisFloored(ms));
    if TimePrepare(ms) == DisplayString(ms, MmSsMs) {
      assert (prefix + Pad(CentisRounded(ms)))[|prefix|..] == Pad(CentisRounded(ms));
      assert (prefix + Pad(CentisFloored(ms)))[|prefix|..] == Pad(CentisFloored(ms));
      assert Parse(Pad(CentisRounded(ms))) == Parse(Pad(CentisFloored(ms)));
    }
  }

  /**
   * The early `_timePrepare` overflows the centisecond field: for remainders
   * 995..999 it shows "100" and the display grows to nine characters.
   */
  lemma TimePrepareCentisOverflow(ms: nat)
    requires ms % MsPerSecond >= 995
    ensures |TimePrepare(ms)| == 9 && TimePrepare(ms)[6..] == "100"
  {
    var prefix := Pad(Minutes(ms)) + ":" + Pad(Seconds(ms)) + ":";
    assert Pad(100) == "100";
    assert TimePrepare(ms) == prefix + "100";
  }

  /** The three fields of the early display read back as minutes, seconds and rounded centiseconds. */
  lemma TimePrepareFieldsDecode(ms: nat)
    ensures var s := TimePrepare(ms);
      && |s| >= 8 && s[2] == ':' && s[5] == ':'
      && AllDigits(s[0..2]) && AllDigits(s[3..5]) && AllDigits(s[6..])
      && Parse(s[0..2]) == Minutes(ms)
      && Parse(s[3..5]) == Seconds(ms)
      && Parse(s[6..]) == CentisRounded(ms)
  {
    var s := TimePrepare(ms);
    assert s[0..2] == Pad(Minutes(ms));
    assert s[3..5] == Pad(Seconds(ms));
    assert s[6..] == Pad(CentisRounded(ms));
  }

  /**
   * Below 995 ms into a second, a last millisecond digit of 5 or more makes the
   * early display show one centisecond more than the time has reached.
   */
  lemma TimePrepareRoundsUp(ms: nat)
    requires ms % 10 >= 5 && ms % MsPerSecond < 995
    ensures var s := TimePrepare(ms);
      |s| == 8 && AllDigits(s[6..8]) && Parse(s[6..8]) == CentisFloored(ms) + 1
  {
    TimePrepareFieldsDecode(ms);
    RoundedVersusFloored(ms);
  }

  /** The tested formatter's centisecond field never shows 100. */
  lemma DisplayCentisAtMost99(ms: int)
    ensures var s := DisplayString(ms, MmSsMs); AllDigits(s[6..8]) && Parse(s[6..8]) <= 99
  {
    DisplayFieldsDecode(ms);
  }

  /** A field below one hundred is its two decimal digits. */
  lemma PadDigits(n: nat)
    requires n < 100
    ensures Pad(n) == [DigitChar(n / 10), DigitChar(n % 10)]
  {
    if n >= 10 {
      assert Show(n) == Show(n / 10) + [DigitChar(n % 10)];
    }
  }

  /** The displays the test suite pins down at second and minute boundaries. */
  lemma TestedBoundaryDisplays()
    ensures DisplayString(0, MmSsMs) == "00:00:00"
    ensures DisplayString(995, MmSsMs) == "00:00:99"
    ensures DisplayString(1000, MmSsMs) == "00:01:00"
    ensures DisplayString(59990, MmSsMs) == "00:59:99"
    ensures DisplayString(-1000, MmSsMs) == "00:00:00"
  {
    PadDigits(0); PadDigits(1); PadDigits(59); PadDigits(99);
    assert Minutes(995) == 0 && Seconds(995) == 0 && CentisFloored(995) == 99;
    assert Minutes(1000) == 0 && Seconds(1000) == 1 && CentisFloored(1000) == 0;
    assert Minutes(59990) == 0 && Seconds(59990) == 59 && CentisFloored(59990) == 99;
  }

  /** The displays the test suite pins down for both formats. */
  lemma TestedFormatDisplays()
    ensures DisplayString(61500, MmSsMs) == "01:01:50"
    ensures DisplayString(61500, SsMs) == "01:50"
    ensures DisplayString(125750, MmSsMs) == "02:05:75"
    ensures DisplayString(125750, SsMs) == "05:75"
  {
    PadDigits(1); PadDigits(2); PadDigits(5); PadDigits(50); PadDigits(75);
    assert Minutes(61500) == 1 && Seconds(61500) == 1 && CentisFloored(61500) == 50;
    assert Minutes(125750) == 2 && Seconds(125750) == 5 && CentisFloored(125750) == 75;
  }

  /** The early rule at 0.995 s: the display the tests reject. */
  lemma TimePrepareAt995()
    ensures TimePrepare(995) == "00:00:100"
    ensures DisplayString(995, MmSsMs) == "00:00:99"
  {
    PadDigits(0); PadDigits(99);
    assert Show(10) == Show(1) + [DigitChar(0)];
    assert Show(100) == Show(10) + [DigitChar(0)];
    assert Pad(100) == "100";
    assert Minutes(995) == 0 && Seconds(995) == 0;
    assert CentisRounded(995) == 100 && CentisFloored(995) == 99;
  }

  /** `SetTimePercentage`: the cursor, in seconds, for a slider percentage. */
  function PercentToTime(percentage: real, duration: real): (t: real)
    ensures percentage == 0.0 ==> t == 0.0
    ensures percentage == 100.0 ==> t == duration
    ensures percentage < 0.0 && duration > 0.0 ==> t < 0.0
  {
    percentage / 100.0 * duration
  }

  /** The tested `setPercentage`: the same cursor clamped at zero. */
  function ClampedPercentToTime(percentage: real, duration: real): (t: real)
    ensures t >= 0.0
    ensures PercentToTime(percentage, duration) >= 0.0 ==> t == PercentToTime(percentage, duration)
    ensures PercentToTime(percentage, duration) < 0.0 ==> t == 0.0
  {
    var t := PercentToTime(percentage, duration);
    if t < 0.0 then 0.0 else t
  }

  /** `update`'s slider position: the cursor as a percentage of the clip. */
  function TimeToPercent(time: real, duration: real): (p: real)
    requires duration != 0.0
    ensures time == 0.0 ==> p == 0.0
    ensures time == duration ==> p == 100.0
  {
    time / duration * 100.0
  }

  /** A slider percentage in 0..100 puts the cursor inside the clip. */
  lemma PercentInClip(percentage: real, duration: real)
    requires 0.0 <= percentage <= 100.0 && duration >= 0.0
    ensures 0.0 <= PercentToTime(percentage, duration) <= duration
  {
    var f := percentage / 100.0;
    assert 0.0 <= f <= 1.0;
    assert 0.0 <= f * duration;
    assert (1.0 - f) * duration >= 0.0;
  }

  /** Setting a percentage and reading the slider back gives the same percentage (exact reals). */
  lemma PercentRoundTrip(percentage: real, duration: real)
    requires duration != 0.0
    ensures TimeToPercent(PercentToTime(percentage, duration), duration) == percentage
  {
    var f := percentage / 100.0;
    assert f * duration / duration == f;
  }
}

=== FILE: tracks.dfy ===
/**
 * The animation-track registry of the later API: metadata extracted from each clip
 * of the attached mesh, and the queries over the resulting list.
 */
module Tracks {
  import opened Common
  import opened Decimal
  import opened Errors

  /** An engine animation clip, as far as the registry reads it. */
  datatype Clip = Clip(name: Option<string>, duration: real, trackCount: Option<nat>, uuid: Option<string>)

  /** `IAnimationTrackInfo`. */
  datatype TrackInfo = TrackInfo(index: nat, name: string, duration: real, tracks: nat, uuid: string)

  /** The name given to a clip that has none: "Animation {index+1}". */
  function DefaultName(index: nat): string
  {
    "Animation " + Show(index + 1)
  }

  /** The identifier given to a clip that has none: "animation-{index}". */
  function DefaultUuid(index: nat): string
  {
    "animation-" + Show(index)
  }

  /** Distinct positions get distinct default names. */
  lemma {:induction false} DefaultNamesDistinct(i: nat, j: nat)
    requires i != j
    ensures DefaultName(i) != DefaultName(j)
  {
    var p := "Animation ";
    if DefaultName(i) == DefaultName(j) {
      assert DefaultName(i)[|p|..] == Show(i + 1);
      assert DefaultName(j)[|p|..] == Show(j + 1);
      ShowInjective(i + 1, j + 1);
    }
  }

  /** The metadata of a present clip at position `index`. */
  function Describe(clip: Clip, index: nat): (t: TrackInfo)
    ensures t.index == index && t.duration == clip.duration
    ensures clip.uuid.Some? ==> t.uuid == clip.uuid.value
    ensures clip.uuid.None? ==> t.uuid == DefaultUuid(index)
    ensures clip.name.Some? ==> t.name == clip.name.value
    ensures clip.name.None? ==> t.name == DefaultName(index)
    ensures t.tracks == if clip.trackCount.Some? then clip.trackCount.value else 0
  {
    TrackInfo(
      index,
      match clip.name case Some(n) => n case None => DefaultName(index),
      clip.duration,
      match clip.trackCount case Some(k) => k case None => 0,
      match clip.uuid case Some(u) => u case None => DefaultUuid(index))
  }

  /** The static `getAnimationTrackInfo`: fails when the clip is null. */
  function GetAnimationTrackInfo(clip: Option<Clip>, index: nat): (r: Result<TrackInfo, Error>)
    ensures r.Err? <==> clip.None?
    ensures r.Err? ==> r.error == ClipRequired
    ensures r.Ok? ==> r.value == Describe(clip.value, index)
  {
    match clip
    case None => Err(ClipRequired)
    case Some(c) => Ok(Describe(c, index))
  }

  lemma TestedTrackInfo()
    ensures GetAnimationTrackInfo(Some(Clip(Some("Walk"), 10.0, Some(2), Some("walk-uuid"))), 0)
      == Ok(TrackInfo(0, "Walk", 10.0, 2, "walk-uuid"))
    ensures GetAnimationTrackInfo(Some(Clip(None, 8.0, Some(1), None)), 2).value.name == "Animation 3"
    ensures GetAnimationTrackInfo(Some(Clip(Some("Test"), 8.0, None, None)), 0).value.tracks == 0
    ensures GetAnimationTrackInfo(None, 0) == Err(ClipRequired)
  {
    assert Show(3) == "3";
  }

  /** The registry built on attach: one entry per clip, in clip order, duplicates kept. */
  function BuildTrackList(clips: seq<Clip>): (list: seq<TrackInfo>)
    ensures |list| == |clips|
    ensures forall i :: 0 <= i < |list| ==> list[i] == Describe(clips[i], i)
    decreases |clips|
  {
    if clips == [] then []
    else BuildTrackList(clips[..|clips| - 1]) + [Describe(clips[|clips| - 1], |clips| - 1)]
  }

  /** Every entry of a built registry records its own position. */
  predicate Indexed(list: seq<TrackInfo>)
  {
    forall i :: 0 <= i < |list| ==> list[i].index == i
  }

  /** The position of the first entry with the given name, if any. */
  function FindIndexByName(list: seq<TrackInfo>, name: string): (r: Option<nat>)
    ensures r.Some? ==> r.value < |list| && list[r.value].name == name
    ensures r.Some? ==> forall j :: 0 <= j < r.value ==> list[j].name != name
    ensures r.None? <==> forall j :: 0 <= j < |list| ==> list[j].name != name
    decreases |list|
  {
    if list == [] then None
    else if list[0].name == name then Some(0)
    else
      match FindIndexByName(list[1..], name)
      case None => None
      case Some(k) => Some(k + 1)
  }

  /** `getAnimationByIndex`: the entry at `index`, or null outside the list. */
  function GetAnimationByIndex(list: seq<TrackInfo>, index: int): (r: Option<TrackInfo>)
    ensures r.Some? <==> 0 <= index < |list|
    ensures r.Some? ==> r.value == list[index]
  {
    if 0 <= index < |list| then Some(list[index]) else None
  }

  /** `getAnimationByName`: the first entry with that name, or null. */
  function GetAnimationByName(list: seq<TrackInfo>, name: string): (r: Option<TrackInfo>)
    ensures r.Some? <==> exists j :: 0 <= j < |list| && list[j].name == name
    ensures r.Some? ==> r.value.name == name && r.value in list
    ensures r.Some? && Indexed(list) ==> forall j :: 0 <= j < r.value.index ==> list[j].name != name
    ensures r.Some? ==>
      exists i :: 0 <= i < |list| && r.value == list[i] && forall j :: 0 <= j < i ==> list[j].name != name
  {
    match FindIndexByName(list, name)
    case None => None
    case Some(i) => Some(list[i])
  }

  lemma TestedRegistry()
    ensures var list := BuildTrackList([
        Clip(Some("Walk"), 10.0, Some(2), Some("walk-uuid")),
        Clip(Some("Walk"), 10.0, Some(2), Some("duplicate-uuid"))]);
      |list| == 2 && list[0].name == "Walk" && list[1].name == "Walk"
      && list[0].uuid == "walk-uuid" && list[1].uuid == "duplicate-uuid"
      && GetAnimationByName(list, "Walk") == Some(list[0])
  {
    var list := BuildTrackList([
        Clip(Some("Walk"), 10.0, Some(2), Some("walk-uuid")),
        Clip(Some("Walk"), 10.0, Some(2), Some("duplicate-uuid"))]);
    assert list[0].name == "Walk";
  }
}
